=== FILE: README.md ===
# Appointment booking rules

A model of the rule engine behind the appointment API of MyAppointment, a
small Express service. The service keeps its appointments in a JSON file and
offers create, update and delete operations. Each record holds an id, a title,
a date (`YYYY-MM-DD`), a time (`h:mm A`, e.g. "9:00 AM"), a creation
timestamp and, after an edit, an update timestamp.

Creating an appointment checks these rules, in this order. The first one
that fails is reported:

1. title, date and time are all given and non-empty;
2. the date is a real calendar date written strictly as `YYYY-MM-DD`;
3. the time is written strictly as `h:mm A`;
4. the time is between 8:00 AM and 6:00 PM, both included;
5. the time is not in the lunch break, 12:00 PM to 2:00 PM, both included;
6. for a booking on today's date, the time is not earlier than now plus two hours;
7. no stored record has the same date and time.

Updating finds the first record with the id. It re-checks only the formats
of the fields it is given, merges them into the record and stamps it.
Deleting drops every record with the id. It reports "not found" when that
drops nothing.

The model is pure Dafny functions over a `seq<Appointment>`:

- `Digits`: decimal digit strings and zero-padding.
- `TimeOfDay`: the `h:mm A` grammar, read as minutes since midnight. It has a strict reading and a lenient one, and a canonical printer `Format`.
- `CalendarDate`: the `YYYY-MM-DD` grammar, with Gregorian month lengths.
- `BusinessHours`: the opening-hours, lunch and lead-time predicates.
- `Store`: slot lookup, lookup by id and removal by id.
- `Controller`: the three operations, returning `Result<seq<Appointment>, Error>`, where `Error` lists the source's failure messages.
- `Properties`: the relational lemmas.

The clock comes in as a `Clock` parameter. It holds today's date, the current
minute of the day and the lead minute: the minute of the day the local clock
shows two hours of elapsed time from now. That is the current minute plus 120,
modulo a day, unless the clocks change within those two hours
(`Controller.SteadyClock`). The new record's id and the timestamps are also
parameters.

Behaviour worth knowing:

- The presence check on create only tests for empty values. A title made of blanks passes.
- Update checks formats only. It does not check opening hours, the lunch break, lead time or slot conflicts, so it can double-book (`Properties.UpdateMayDoubleBook`).
- The lead-time rule applies only when the date is today's. A past date is never refused for lead time.
- "Now plus two hours" is compared as a time of day. From 10 PM on, with no clock change ahead, it wraps past midnight and the rule no longer fires (`Properties.LeadTimeLapsesAfterTenPm`). On a night when the clocks go back an hour at midnight, the threshold at 10:30 PM is 11:30 PM of the same day and the rule still fires (`Properties.LeadTimeHoldsWhenClocksGoBack`).
- Lead time is checked before the slot. A second create of a booked same-day slot fails as a taken slot only while the time is still two hours away; a later retry is refused for lead time instead (`Properties.LaterRetryRefusedForLeadTime`).

## Model

| member | source | states |
|---|---|---|
| TimeOfDay.Format | controllers/appointmentsController.js:77 | the canonical `h:mm A` text of every minute of the day is accepted by the strict reading and read back as that same minute |
| TimeOfDay.ParseIsCanonical | controllers/appointmentsController.js:77 | within the modelled `h:mm A` grammar (upper-case AM/PM), the strict reading accepts only canonical text: any string it reads as minute m is exactly `Format(m)`, so the modelled strict time strings and minutes 0..1439 correspond one to one; the other meridiem spellings the check at line 77 also accepts are not modelled (see Left out) |
| TimeOfDay.StrictImpliesLenient | controllers/appointmentsController.js:37 | a time the strict check accepts is read with the same minute by the lenient reading the range checks use |
| TimeOfDay.OpeningTimeIs480 | controllers/appointmentsController.js:35 | the opening constant "08:00 AM" reads leniently as minute 480 |
| TimeOfDay.ClosingTimeIs1080 | controllers/appointmentsController.js:36 | the closing constant "06:00 PM" reads leniently as minute 1080 |
| TimeOfDay.LunchStartIs720 | controllers/appointmentsController.js:42 | the lunch-start constant "12:00 PM" reads leniently as minute 720 |
| TimeOfDay.LunchEndIs840 | controllers/appointmentsController.js:43 | the lunch-end constant "02:00 PM" reads leniently as minute 840 |
| CalendarDate.Format | controllers/appointmentsController.js:73 | the `YYYY-MM-DD` text of every calendar date is accepted by the strict date check and read back as that date |
| CalendarDate.ParseIsCanonical | controllers/appointmentsController.js:73 | any string the strict date check accepts is exactly the canonical text of the date it reads |
| CalendarDate.ValidIffRendersCalendarDate | controllers/appointmentsController.js:73 | a string passes the strict date check if and only if it is the `YYYY-MM-DD` text of a real calendar date with month lengths and leap years respected |
| BusinessHours.IsWithinAllowedTime | controllers/appointmentsController.js:34-38 | true exactly when the time reads as a minute between 8:00 AM and 6:00 PM, both ends included; unreadable times are outside |
| BusinessHours.IsLunchBreak | controllers/appointmentsController.js:41-45 | true exactly when the time reads as a minute between 12:00 PM and 2:00 PM, both ends included |
| BusinessHours.LeadThreshold | controllers/appointmentsController.js:71 | now plus two hours as a time of day when the clocks do not change meanwhile: a minute in 0..1439 that is now+120, or now+120-1440 once that passes midnight |
| BusinessHours.ThresholdTextReadsBack | controllers/appointmentsController.js:71 | formatting any threshold minute as `h:mm A` and reading it back gives the same minute, so comparing minutes matches comparing the formatted time |
| BusinessHours.BookableWindows | controllers/appointmentsController.js:81-87 | a valid time passes both the opening-hours and the lunch rule exactly when it is in [8:00 AM, 12:00 PM) or (2:00 PM, 6:00 PM] |
| Store.IsTimeSlotAvailable | controllers/appointmentsController.js:48-50 | a slot is free exactly when no stored record has both that date and that time |
| Store.FindIndex | controllers/appointmentsController.js:125-127 | finds the first position holding the id, and finds nothing exactly when no record carries it |
| Store.RemoveId | controllers/appointmentsController.js:163-165 | keeps exactly the records whose id differs, loses no other record, and shortens the list if and only if the id was present |
| Store.RemoveIdKeepsOthers | controllers/appointmentsController.js:163-165 | every record with another id survives as many times as it was stored |
| Controller.Create | controllers/appointmentsController.js:63-111 | on success, appends exactly the new record after the unchanged old ones; the fields were present, the date valid, the slot free and the time in a bookable window; create never reports "not found" |
| Controller.CreateReportsFirstBrokenRule | controllers/appointmentsController.js:66-100 | create succeeds if and only if no rule is broken, and on failure reports the first broken rule in check order |
| Controller.MessageIdentifiesRule | controllers/appointmentsController.js:67-168 | each rejection carries its own response message, the exact text the controller sends, so two messages are equal exactly when the rules are |
| Controller.Update | controllers/appointmentsController.js:120-150 | not found if and only if no record has the id; invalid date and invalid time exactly when a given field fails the strict check, date first; otherwise only the first record with the id changes, given fields replacing old ones, with the update stamp set |
| Controller.Delete | controllers/appointmentsController.js:159-171 | fails with not found exactly when no record has the id; otherwise every record with the id is gone and every other record remains |
| Properties.CheckupDateIsValid | controllers/appointmentsController.js:73 | "2030-01-10" passes the strict date check |
| Properties.LeapDayIsValid | controllers/appointmentsController.js:73 | "2024-02-29" passes the strict date check |
| Properties.NonLeapDayIsInvalid | controllers/appointmentsController.js:73 | "2023-02-29" fails the strict date check |
| Properties.AprilThirtyFirstIsInvalid | controllers/appointmentsController.js:73 | "2024-04-31" fails the strict date check |
| Properties.MonthThirteenIsInvalid | controllers/appointmentsController.js:73 | "2024-13-40" fails the strict date check |
| Properties.PaddedHourIsRefused | controllers/appointmentsController.js:77 | "08:00 AM" fails the strict time check, though the lenient reading accepts it |
| Properties.CreateDecidesByWindows | controllers/appointmentsController.js:81-87 | for an otherwise acceptable request, create succeeds exactly inside the bookable windows, reports business hours outside 8:00 AM-6:00 PM and the lunch break inside 12:00 PM-2:00 PM |
| Properties.BusinessHoursEdgesAccepted | controllers/appointmentsController.js:81-110 | "8:00 AM" and "6:00 PM" are booked on a free slot of a valid date, unless the date is today's and the time is before the lead-time threshold |
| Properties.AnyLunchMinuteRejected | controllers/appointmentsController.js:85-87 | every valid time from 12:00 PM to 2:00 PM is refused as lunch break, whatever the day, the clock and the stored bookings |
| Properties.AnyOutsideMinuteRejected | controllers/appointmentsController.js:81-83 | every valid time before 8:00 AM or after 6:00 PM is refused as outside business hours, whatever the day, the clock and the stored bookings |
| Properties.LunchEdgesRejected | controllers/appointmentsController.js:85-87 | "12:00 PM" and "2:00 PM" are refused as lunch break, whatever the day, the clock and the stored bookings |
| Properties.JustOutsideHoursRejected | controllers/appointmentsController.js:81-83 | "7:59 AM" and "6:01 PM" are refused as outside business hours, whatever the day, the clock and the stored bookings |
| Properties.CreateRefusesMonthThirteen | controllers/appointmentsController.js:73-75 | create refuses "2024-13-40" with the invalid-date error for any non-empty title and time |
| Properties.CreateRefusesOutOfRangeTime | controllers/appointmentsController.js:77-79 | create refuses "25:61" with the invalid-time error for any titled request on a valid date |
| Properties.LeadTimeOnlyToday | controllers/appointmentsController.js:89-94 | a lead-time refusal happens only for today's date and a valid in-hours time earlier than now plus two hours |
| Properties.CreateRefusesTooSoon | controllers/appointmentsController.js:89-94 | a valid, bookable time on today's date earlier than the threshold is refused for lead time, whatever the stored bookings |
| Properties.LeadTimeLapsesAfterTenPm | controllers/appointmentsController.js:71 | from 10 PM on, with no clock change in the next two hours, create never refuses for lead time |
| Properties.PastSlotTodayAcceptedLateEvening | controllers/appointmentsController.js:89-94 | at 11 PM on a steady clock, a 9:00 AM slot on the same, already-passed day is accepted |
| Properties.LeadTimeHoldsWhenClocksGoBack | controllers/appointmentsController.js:71-94 | at 10:30 PM on a night when the clocks go back at midnight, the threshold is 11:30 PM of the same day, and a 9:00 AM slot that day is refused for lead time |
| Properties.CreateThenSameSlotTaken | controllers/appointmentsController.js:96-110 | after a successful create, a second create at the same clock, with a title and the same date and time, fails with slot taken |
| Properties.LaterRetryRefusedForLeadTime | controllers/appointmentsController.js:89-100 | a 9:00 AM checkup booked at 6:00 AM the same day is, when asked for again at 8:00 AM, refused for lead time rather than as a taken slot, because lead time is checked first |
| Properties.CreatePreservesUniqueSlots | controllers/appointmentsController.js:96-110 | create keeps every slot held by at most one record |
| Properties.CreateThenFind | controllers/appointmentsController.js:102-110 | after creating with a fresh id, looking that id up finds the new record at the end with the requested title, date and time |
| Properties.UpdateThenFind | controllers/appointmentsController.js:141-149 | after an update, the id is found at the same position, holding its id and creation stamp with the given fields merged in |
| Properties.UpdateTitleOnlyKeepsSlot | controllers/appointmentsController.js:141-149 | changing only the title of an existing record succeeds and leaves its date and time alone |
| Properties.UpdateSkipsBookingRules | controllers/appointmentsController.js:133-149 | update moves a record to "12:30 PM", inside the lunch break |
| Properties.UpdateMayDoubleBook | controllers/appointmentsController.js:133-149 | update can move a record onto a slot another record holds, so slot uniqueness is not kept by update |
| Properties.DeleteThenNotFound | controllers/appointmentsController.js:163-169 | after a delete, the id is not found and deleting it again reports not found |
| Properties.RemoveIdDistributes | controllers/appointmentsController.js:163-165 | deleting from a concatenation deletes from each part, so the surviving records keep their order |
| Properties.RemoveIdWithoutId | controllers/appointmentsController.js:163-165 | deleting an id no record carries changes nothing |
| Properties.RemoveIdPreservesUniqueSlots | controllers/appointmentsController.js:163-165 | removing records keeps every slot held by at most one record |
| Properties.DeletePreservesUniqueSlots | controllers/appointmentsController.js:159-171 | delete keeps every slot held by at most one record |
| Properties.CheckupSession | controllers/appointmentsController.js:63-171 | booking a checkup on a free day succeeds, booking its slot again fails as taken, and deleting it by id empties the store |

## Left out

- Reading and writing the JSON file (`loadAppointments`, `saveAppointments`, controllers/appointmentsController.js:9-31): the store is a value passed in and returned; the file-missing, empty-file and I/O-error paths are not modelled.
- `getAppointments`: it only returns the stored list, with no rule to state.
- HTTP plumbing: status codes, response bodies and the server, routes, Mongoose model and database configuration files. `Controller.Message` keeps the exact error texts.
- The clock and the time-zone rules: `moment()`, `moment().add(2, "hours")`, `Date.now()` and `toISOString()` become parameters. The caller supplies the current date text, the current minute of the day, the minute of the day two elapsed hours later, the new id and the timestamps. How a time zone's clock changes move that later minute is not modelled; the lemmas that assume no change say so with `Controller.SteadyClock`.
- The id in the URL is modelled after `parseInt`, as an integer. Non-numeric ids, which the source turns into NaN, are not modelled.
- Request fields that are not strings (numbers, booleans) are not modelled. A field is either absent or a string, and present means non-empty.
- The time reader covers the `h:mm A` grammar only: hour 1-12, two minute digits, one space, then "AM" or "PM" in capitals. In strict mode a leading zero on the hour ("08:00 AM") is refused.
- Other meridiem spellings are left out. The strict check at controllers/appointmentsController.js:77 also accepts "9:00 am", "9:00 a" and "9:00 p.m.", because moment matches the meridiem case-insensitively, with optional dots and an optional "m", even in strict mode. Create books such times. The model refuses them with the invalid-time error.
- Because slots are compared as exact strings (line 49), the source can book "9:00 AM" and "9:00 am" for the same minute on the same day. The model cannot show this.
- Because of these spellings, the one-to-one match between strict time strings and minutes stated by `TimeOfDay.ParseIsCanonical` holds for the modelled grammar, not for the check at line 77.
- Looser forms that only the lenient reading would take (a missing minute field, trailing text) are not modelled. The lenient reading is only applied to the controller's constants and to times that already passed the strict check.
- The date reader covers four-digit years 0000-9999 with the Gregorian calendar.
- Concurrent requests racing on the file are not modelled.

=== FILE: business_hours.dfy ===
/**
 * The time-of-day rules of the booking policy: the business day runs from
 * 8:00 AM to 6:00 PM, lunch from 12:00 PM to 2:00 PM, both ends inclusive,
 * and a same-day booking needs two hours' notice. The controller compares
 * times through the same lenient `h:mm A` reading it uses for its constants.
 */
module BusinessHours {
  import opened Wrappers
  import TimeOfDay

  const OpeningTime: string := "08:00 AM"
  const ClosingTime: string := "06:00 PM"
  const LunchStart: string := "12:00 PM"
  const LunchEnd: string := "02:00 PM"

  /** The notice a same-day booking needs, in minutes. */
  const LeadMinutes: int := 120

  /** `start <= time <= end` on the lenient readings; false when any of the three does not read. */
  function IsBetweenInclusive(time: string, start: string, end: string): bool {
    match (TimeOfDay.Parse(time, true), TimeOfDay.Parse(start, true), TimeOfDay.Parse(end, true))
    case (Some(t), Some(a), Some(b)) => a <= t <= b
    case _ => false
  }

  /** `time` is earlier than minute `threshold`, on the lenient reading; false when `time` does not read. */
  function IsBefore(time: string, threshold: int): bool {
    match TimeOfDay.Parse(time, true)
    case Some(t) => t < threshold
    case None => false
  }

  /** The business-hours test: a readable time from 8:00 AM (minute 480) to 6:00 PM (minute 1080), both included. */
  function IsWithinAllowedTime(time: string): (b: bool)
    ensures b <==> TimeOfDay.Parse(time, true).Some? && 480 <= TimeOfDay.Parse(time, true).value <= 1080
  {
    TimeOfDay.OpeningTimeIs480();
    TimeOfDay.ClosingTimeIs1080();
    IsBetweenInclusive(time, OpeningTime, ClosingTime)
  }

  /** The lunch-break test: a readable time from 12:00 PM (minute 720) to 2:00 PM (minute 840), both included. */
  function IsLunchBreak(time: string): (b: bool)
    ensures b <==> TimeOfDay.Parse(time, true).Some? && 720 <= TimeOfDay.Parse(time, true).value <= 840
  {
    TimeOfDay.LunchStartIs720();
    TimeOfDay.LunchEndIs840();
    IsBetweenInclusive(time, LunchStart, LunchEnd)
  }

  /**
   * The minute of the day two hours from `nowMinute` when the clocks do not
   * change meanwhile. The controller keeps only the time of day of that
   * instant, so after 10 PM it wraps round to an early-morning minute.
   */
  function LeadThreshold(nowMinute: int): (t: int)
    requires 0 <= nowMinute < TimeOfDay.MinutesPerDay
    ensures 0 <= t < TimeOfDay.MinutesPerDay
    ensures t == nowMinute + LeadMinutes || t == nowMinute + LeadMinutes - TimeOfDay.MinutesPerDay
  {
    (nowMinute + LeadMinutes) % TimeOfDay.MinutesPerDay
  }

  /**
   * The controller writes the threshold minute as `h:mm A` text and reads it
   * back; the round trip returns the same minute, so comparing with the
   * minute itself is the same test.
   */
  lemma ThresholdTextReadsBack(threshold: int)
    requires 0 <= threshold < TimeOfDay.MinutesPerDay
    ensures TimeOfDay.Parse(TimeOfDay.Format(threshold), true) == Some(threshold)
  {
    TimeOfDay.StrictImpliesLenient(TimeOfDay.Format(threshold), threshold);
  }

  /**
   * A validly written time passes the hours test and misses the lunch test
   * exactly when it lies in one of the two bookable windows,
   * 8:00 AM to before 12:00 PM, or after 2:00 PM to 6:00 PM.
   */
  lemma BookableWindows(time: string, m: int)
    requires TimeOfDay.Parse(time, false) == Some(m)
    ensures IsWithinAllowedTime(time) && !IsLunchBreak(time) <==> 480 <= m < 720 || 840 < m <= 1080
  {
    TimeOfDay.StrictImpliesLenient(time, m);
  }
}

=== FILE: calendar_date.dfy ===
/**
 * Calendar dates in the strict `YYYY-MM-DD` format: four year digits, two
 * month digits 01-12, two day digits naming a day that exists in that month
 * of the proleptic Gregorian calendar, separated by '-'.
 */
module CalendarDate {
  import opened Wrappers
  import opened Digits

  datatype Date = Date(year: nat, month: nat, day: nat)

  /** Gregorian leap years: every fourth year, except centuries not divisible by 400. */
  predicate IsLeapYear(y: nat) {
    (y % 4 == 0 && y % 100 != 0) || y % 400 == 0
  }

  function DaysInMonth(y: nat, m: nat): (n: nat)
    requires 1 <= m <= 12
    ensures 28 <= n <= 31
    ensures n == 29 <==> m == 2 && IsLeapYear(y)
  {
    if m == 2 then (if IsLeapYear(y) then 29 else 28)
    else if m == 4 || m == 6 || m == 9 || m == 11 then 30
    else 31
  }

  /** A day that exists, with a year that fits in four digits. */
  predicate IsCalendarDate(d: Date) {
    && d.year < 10000
    && 1 <= d.month <= 12
    && 1 <= d.day <= DaysInMonth(d.year, d.month)
  }

  /** The date `s` names, or None when `s` is not a strict `YYYY-MM-DD` date. */
  function Parse(s: string): (r: Option<Date>)
    ensures r.Some? ==> IsCalendarDate(r.value)
  {
    if |s| != 10 then None
    else ReadFields(s[..4], s[4], s[5..7], s[7], s[8..])
  }

  /** The fields of a `YYYY-MM-DD` string, already cut apart, read as a date. */
  function ReadFields(year: string, dash1: char, month: string, dash2: char, day: string): (r: Option<Date>)
    requires |year| == 4
    ensures r.Some? ==> IsCalendarDate(r.value)
  {
    if dash1 != '-' || dash2 != '-' || !AllDigits(year) || !AllDigits(month) || !AllDigits(day) then None
    else
      assert Pow10(4) == 10000;
      var d := Date(Value(year), Value(month), Value(day));
      if 1 <= d.month <= 12 && 1 <= d.day <= DaysInMonth(d.year, d.month) then Some(d) else None
  }

  /** The format check both create and update apply to a date. */
  predicate IsValid(s: string) {
    Parse(s).Some?
  }

  /** The text `year-month-day` put together from its three fields. */
  function Assemble(year: string, month: string, day: string): string {
    year + "-" + month + "-" + day
  }

  /** Reading an assembled string reads exactly the fields it was built from. */
  lemma ParseAssembled(year: string, month: string, day: string)
    requires |year| == 4 && |month| == 2 && |day| == 2
    ensures Parse(Assemble(year, month, day)) == ReadFields(year, '-', month, '-', day)
  {
    var s := Assemble(year, month, day);
    assert s == year + ['-'] + month + ['-'] + day;
    assert s[..4] == year;
    assert s[5..7] == month;
    assert s[8..] == day;
  }

  /** The zero-padded `YYYY-MM-DD` text of a date; parsing takes it back to the date. */
  function Format(d: Date): (s: string)
    requires IsCalendarDate(d)
    ensures Parse(s) == Some(d)
  {
    assert Pow10(4) == 10000;
    var year, month, day := Pad(d.year, 4), Pad(d.month, 2), Pad(d.day, 2);
    ParseAssembled(year, month, day);
    Assemble(year, month, day)
  }

  /**
   * Parsing accepts only the canonical text: a string read as date `d` is
   * exactly `Format(d)`. So the valid strings are precisely the renderings
   * of calendar dates.
   */
  lemma ParseIsCanonical(s: string, d: Date)
    requires Parse(s) == Some(d)
    ensures Format(d) == s
  {
    var year, month, day := s[..4], s[5..7], s[8..];
    assert s == year + [s[4]] + month + [s[7]] + day;
    assert Pad(d.year, 4) == year by { PadValue(year); }
    assert Pad(d.month, 2) == month by { PadValue(month); }
    assert Pad(d.day, 2) == day by { PadValue(day); }
    assert Format(d) == Assemble(year, month, day);
  }

  /** A string is a valid date exactly when it renders some calendar date. */
  lemma ValidIffRendersCalendarDate(s: string)
    ensures IsValid(s) <==> exists d :: IsCalendarDate(d) && Format(d) == s
  {
    if IsValid(s) {
      ParseIsCanonical(s, Parse(s).value);
    }
  }
}

=== FILE: controller.dfy ===
/**
 * The decision logic of the appointment controller: create, update and
 * delete as pure transitions of the stored sequence, each returning either
 * the new sequence or the error the controller reports.
 */
module Controller {
  import opened Wrappers
  import opened Store
  import TimeOfDay
  import CalendarDate
  import BusinessHours

  /** The rejections the controller reports, one per rule. */
  datatype Error =
    | MissingField
    | InvalidDateFormat
    | InvalidTimeFormat
    | OutsideBusinessHours
    | DuringLunchBreak
    | InsufficientLeadTime
    | SlotTaken
    | NotFound

  /** The message the controller sends with each rejection. */
  function Message(e: Error): string {
    match e
    case MissingField => "Title, date, and time are required."
    case InvalidDateFormat => "Invalid date format. Use YYYY-MM-DD."
    case InvalidTimeFormat => "Invalid time format. Use h:mm A."
    case OutsideBusinessHours => "Time must be between 8 AM and 6 PM."
    case DuringLunchBreak => "Time falls within lunch break (12 PM - 2 PM)."
    case InsufficientLeadTime => "Time must be at least 2 hours from now."
    case SlotTaken => "Time slot is already taken."
    case NotFound => "Appointment not found."
  }

  /** Every rule has its own message, so a client can tell from the message which rule was broken. */
  lemma MessageIdentifiesRule(e1: Error, e2: Error)
    ensures Message(e1) == Message(e2) <==> e1 == e2
  {
  }

  /** The fields of a request body; a field the client left out is None. */
  datatype Request = Request(title: Option<string>, date: Option<string>, time: Option<string>)

  /**
   * The clock at request time: today's date as `YYYY-MM-DD`, the minute of
   * the day, and the minute of the day the local clock shows two hours of
   * elapsed time from now. The last is the lead-time threshold; it is
   * `LeadThreshold(minute)` unless the clocks change within those two hours.
   */
  datatype Clock = Clock(today: string, minute: int, leadMinute: int)

  /** No clock change falls within the next two hours: the threshold is the current minute plus 120, modulo a day. */
  predicate SteadyClock(now: Clock) {
    0 <= now.minute < TimeOfDay.MinutesPerDay && now.leadMinute == BusinessHours.LeadThreshold(now.minute)
  }

  /** A field counts as given when it is there and not empty. */
  predicate Present(f: Option<string>) {
    f.Some? && f.value != ""
  }

  /** The text of a field, empty when it was left out. */
  function Text(f: Option<string>): string {
    if f.Some? then f.value else ""
  }

  /**
   * The creation rules, each judged on its own: `Violates(e, ...)` holds when
   * the request breaks the rule reported as `e`. Times are stated as minutes
   * of the day: business hours 480..1080, lunch 720..840, and the lead-time
   * threshold is the clock's lead minute.
   */
  predicate Violates(e: Error, s: seq<Appointment>, req: Request, now: Clock) {
    var date, time := Text(req.date), Text(req.time);
    var m := TimeOfDay.Parse(time, false);
    match e
    case MissingField => !Present(req.title) || !Present(req.date) || !Present(req.time)
    case InvalidDateFormat => CalendarDate.Parse(date).None?
    case InvalidTimeFormat => m.None?
    case OutsideBusinessHours => m.Some? && !(480 <= m.value <= 1080)
    case DuringLunchBreak => m.Some? && 720 <= m.value <= 840
    case InsufficientLeadTime =>
      date == now.today && m.Some? && m.value < now.leadMinute
    case SlotTaken => exists i :: 0 <= i < |s| && Occupies(s[i], date, time)
    case NotFound => false
  }

  /** The order in which the creation rules are checked. */
  function Rank(e: Error): nat {
    match e
    case MissingField => 0
    case InvalidDateFormat => 1
    case InvalidTimeFormat => 2
    case OutsideBusinessHours => 3
    case DuringLunchBreak => 4
    case InsufficientLeadTime => 5
    case SlotTaken => 6
    case NotFound => 7
  }

  /** `e` is the rule the controller reports: the request breaks it and every rule checked before it holds. */
  predicate FirstBroken(e: Error, s: seq<Appointment>, req: Request, now: Clock) {
    Violates(e, s, req, now) && forall e' :: Rank(e') < Rank(e) ==> !Violates(e', s, req, now)
  }

  /**
   * Creating an appointment. The checks run in order and the first that fails
   * is reported; when all pass, one record is appended with the given id and
   * creation time. The lead-time threshold is the time of day two hours from
   * now, with the day dropped.
   */
  function Create(s: seq<Appointment>, req: Request, now: Clock, id: int, createdAt: string)
    : (r: Result<seq<Appointment>, Error>)
    requires 0 <= now.leadMinute < TimeOfDay.MinutesPerDay
    ensures r.Err? ==> r.error != NotFound
    ensures r.Ok? ==> && Present(req.title) && Present(req.date) && Present(req.time)
                      && |r.value| == |s| + 1 && r.value[..|s|] == s
                      && r.value[|s|] == Appointment(id, req.title.value, req.date.value, req.time.value, createdAt, None)
    ensures r.Ok? ==> && CalendarDate.IsValid(req.date.value)
                      && IsTimeSlotAvailable(s, req.date.value, req.time.value)
                      && var m := TimeOfDay.Parse(req.time.value, false);
                         m.Some? && (480 <= m.value < 720 || 840 < m.value <= 1080)
  {
    if !Present(req.title) || !Present(req.date) || !Present(req.time) then Err(MissingField)
    else
      var title, date, time := req.title.value, req.date.value, req.time.value;
      if !CalendarDate.IsValid(date) then Err(InvalidDateFormat)
      else if TimeOfDay.Parse(time, false).None? then Err(InvalidTimeFormat)
      else
        TimeOfDay.StrictImpliesLenient(time, TimeOfDay.Parse(time, false).value);
        if !BusinessHours.IsWithinAllowedTime(time) then Err(OutsideBusinessHours)
        else if BusinessHours.IsLunchBreak(time) then Err(DuringLunchBreak)
        else if date == now.today && BusinessHours.IsBefore(time, now.leadMinute) then Err(InsufficientLeadTime)
        else if !IsTimeSlotAvailable(s, date, time) then Err(SlotTaken)
        else Ok(s + [Appointment(id, title, date, time, createdAt, None)])
  }

  /**
   * Create reports the first rule, in checking order, that the request
   * breaks, and succeeds exactly when it breaks none.
   */
  lemma CreateReportsFirstBrokenRule(s: seq<Appointment>, req: Request, now: Clock, id: int, createdAt: string)
    requires 0 <= now.leadMinute < TimeOfDay.MinutesPerDay
    ensures var r := Create(s, req, now, id, createdAt);
      && (r.Ok? <==> forall e :: !Violates(e, s, req, now))
      && (r.Err? ==> FirstBroken(r.error, s, req, now))
  {
    var r := Create(s, req, now, id, createdAt);
    if r.Ok? {
      CreateAcceptsOnlyUnbrokenRequests(s, req, now, id, createdAt);
    } else {
      CreateRejectsWithFirstBrokenRule(s, req, now, id, createdAt);
    }
  }

  /** A request create accepts breaks no rule. */
  lemma CreateAcceptsOnlyUnbrokenRequests(s: seq<Appointment>, req: Request, now: Clock, id: int, createdAt: string)
    requires 0 <= now.leadMinute < TimeOfDay.MinutesPerDay
    ensures Create(s, req, now, id, createdAt).Ok? ==> forall e :: !Violates(e, s, req, now)
  {
    if Create(s, req, now, id, createdAt).Err? {
      return;
    }
    var date, time := req.date.value, req.time.value;
    var m := TimeOfDay.Parse(time, false).value;
    TimeOfDay.StrictImpliesLenient(time, m);
    assert !Violates(MissingField, s, req, now);
    assert !Violates(InvalidDateFormat, s, req, now);
    assert !Violates(InvalidTimeFormat, s, req, now);
    assert !Violates(OutsideBusinessHours, s, req, now);
    assert !Violates(DuringLunchBreak, s, req, now);
    assert !(date == now.today && BusinessHours.IsBefore(time, now.leadMinute));
    assert !Violates(InsufficientLeadTime, s, req, now);
    assert !Violates(SlotTaken, s, req, now);
    forall e
      ensures !Violates(e, s, req, now)
    {
      match e
      case NotFound =>
      case _ =>
    }
  }

  /** `e` is broken and every rule of a lower rank holds. */
  lemma FirstBrokenFrom(e: Error, s: seq<Appointment>, req: Request, now: Clock)
    requires Violates(e, s, req, now)
    requires Rank(e) > 0 ==> !Violates(MissingField, s, req, now)
    requires Rank(e) > 1 ==> !Violates(InvalidDateFormat, s, req, now)
    requires Rank(e) > 2 ==> !Violates(InvalidTimeFormat, s, req, now)
    requires Rank(e) > 3 ==> !Violates(OutsideBusinessHours, s, req, now)
    requires Rank(e) > 4 ==> !Violates(DuringLunchBreak, s, req, now)
    requires Rank(e) > 5 ==> !Violates(InsufficientLeadTime, s, req, now)
    requires Rank(e) > 6 ==> !Violates(SlotTaken, s, req, now)
    ensures FirstBroken(e, s, req, now)
  {
    forall e' | Rank(e') < Rank(e)
      ensures !Violates(e', s, req, now)
    {
      match e'
      case NotFound =>
      case _ =>
    }
  }

  /** A rejection from create names the first rule, in checking order, that the request breaks. */
  lemma CreateRejectsWithFirstBrokenRule(s: seq<Appointment>, req: Request, now: Clock, id: int, createdAt: string)
    requires 0 <= now.leadMinute < TimeOfDay.MinutesPerDay
    requires Create(s, req, now, id, createdAt).Err?
    ensures FirstBroken(Create(s, req, now, id, createdAt).error, s, req, now)
  {
    if !Present(req.title) || !Present(req.date) || !Present(req.time)
      || !CalendarDate.IsValid(req.date.value) || TimeOfDay.Parse(req.time.value, false).None?
    {
      RejectsMalformed(s, req, now, id, createdAt);
    } else if !BusinessHours.IsWithinAllowedTime(req.time.value) || BusinessHours.IsLunchBreak(req.time.value) {
      RejectsOutsideOpening(s, req, now, id, createdAt);
    } else if req.date.value == now.today && BusinessHours.IsBefore(req.time.value, now.leadMinute) {
      RejectsTooSoon(s, req, now, id, createdAt);
    } else {
      assert !IsTimeSlotAvailable(s, req.date.value, req.time.value);
      RejectsTaken(s, req, now, id, createdAt);
    }
  }

  /** Rejections for a field left out, a malformed date or a malformed time. */
  lemma RejectsMalformed(s: seq<Appointment>, req: Request, now: Clock, id: int, createdAt: string)
    requires 0 <= now.leadMinute < TimeOfDay.MinutesPerDay
    requires !Present(req.title) || !Present(req.date) || !Present(req.time)
      || !CalendarDate.IsValid(req.date.value) || TimeOfDay.Parse(req.time.value, false).None?
    ensures var r := Create(s, req, now, id, createdAt);
      r.Err? && FirstBroken(r.error, s, req, now)
  {
    var r := Create(s, req, now, id, createdAt);
    if !Present(req.title) || !Present(req.date) || !Present(req.time) {
      assert r == Err(MissingField);
      FirstBrokenFrom(MissingField, s, req, now);
    } else if !CalendarDate.IsValid(req.date.value) {
      assert r == Err(InvalidDateFormat);
      FirstBrokenFrom(InvalidDateFormat, s, req, now);
    } else {
      assert r == Err(InvalidTimeFormat);
      FirstBrokenFrom(InvalidTimeFormat, s, req, now);
    }
  }

  /** Rejections for a well-formed time outside business hours or in the lunch break. */
  lemma RejectsOutsideOpening(s: seq<Appointment>, req: Request, now: Clock, id: int, createdAt: string)
    requires 0 <= now.leadMinute < TimeOfDay.MinutesPerDay
    requires Present(req.title) && Present(req.date) && Present(req.time)
    requires CalendarDate.IsValid(req.date.value) && TimeOfDay.Parse(req.time.value, false).Some?
    requires !BusinessHours.IsWithinAllowedTime(req.time.value) || BusinessHours.IsLunchBreak(req.time.value)
    ensures var r := Create(s, req, now, id, createdAt);
      r.Err? && FirstBroken(r.error, s, req, now)
  {
    var r := Create(s, req, now, id, createdAt);
    var time := req.time.value;
    TimeOfDay.StrictImpliesLenient(time, TimeOfDay.Parse(time, false).value);
    if !BusinessHours.IsWithinAllowedTime(time) {
      assert r == Err(OutsideBusinessHours);
      FirstBrokenFrom(OutsideBusinessHours, s, req, now);
    } else {
      assert r == Err(DuringLunchBreak);
      FirstBrokenFrom(DuringLunchBreak, s, req, now);
    }
  }

  /** The rejection for a bookable time today that is earlier than the lead-time threshold. */
  lemma RejectsTooSoon(s: seq<Appointment>, req: Request, now: Clock, id: int, createdAt: string)
    requires 0 <= now.leadMinute < TimeOfDay.MinutesPerDay
    requires Present(req.title) && Present(req.date) && Present(req.time)
    requires CalendarDate.IsValid(req.date.value) && TimeOfDay.Parse(req.time.value, false).Some?
    requires BusinessHours.IsWithinAllowedTime(req.time.value) && !BusinessHours.IsLunchBreak(req.time.value)
    requires req.date.value == now.today
    requires BusinessHours.IsBefore(req.time.value, now.leadMinute)
    ensures Create(s, req, now, id, createdAt) == Err(InsufficientLeadTime)
    ensures FirstBroken(InsufficientLeadTime, s, req, now)
  {
    TimeOfDay.StrictImpliesLenient(req.time.value, TimeOfDay.Parse(req.time.value, false).value);
    FirstBrokenFrom(InsufficientLeadTime, s, req, now);
  }

  /** The rejection for a bookable, early enough time whose slot is taken. */
  lemma RejectsTaken(s: seq<Appointment>, req: Request, now: Clock, id: int, createdAt: string)
    requires 0 <= now.leadMinute < TimeOfDay.MinutesPerDay
    requires Present(req.title) && Present(req.date) && Present(req.time)
    requires CalendarDate.IsValid(req.date.value) && TimeOfDay.Parse(req.time.value, false).Some?
    requires BusinessHours.IsWithinAllowedTime(req.time.value) && !BusinessHours.IsLunchBreak(req.time.value)
    requires !(req.date.value == now.today && BusinessHours.IsBefore(req.time.value, now.leadMinute))
    requires !IsTimeSlotAvailable(s, req.date.value, req.time.value)
    ensures Create(s, req, now, id, createdAt) == Err(SlotTaken)
    ensures FirstBroken(SlotTaken, s, req, now)
  {
    TimeOfDay.StrictImpliesLenient(req.time.value, TimeOfDay.Parse(req.time.value, false).value);
    FirstBrokenFrom(SlotTaken, s, req, now);
  }

  /**
   * Updating the record with the given id. An unknown id is reported first;
   * then a given date or time must be well formed. Only the formats are
   * checked: hours, lunch and slot conflicts are not. Fields left out or
   * empty keep their stored values; id and creation time are kept.
   */
  function Update(s: seq<Appointment>, id: int, req: Request, updatedAt: string)
    : (r: Result<seq<Appointment>, Error>)
    ensures r == Err(NotFound) <==> !HasId(s, id)
    ensures r == Err(InvalidDateFormat) <==>
      HasId(s, id) && Present(req.date) && CalendarDate.Parse(req.date.value).None?
    ensures r == Err(InvalidTimeFormat) <==>
      && HasId(s, id) && !(Present(req.date) && CalendarDate.Parse(req.date.value).None?)
      && Present(req.time) && TimeOfDay.Parse(req.time.value, false).None?
    ensures r.Err? ==> r.error in {NotFound, InvalidDateFormat, InvalidTimeFormat}
    ensures r.Ok? ==> |r.value| == |s|
    ensures r.Ok? ==> forall i :: IsFirstWithId(s, id, i) ==>
      && r.value[i] == s[i].(
        title := if Present(req.title) then req.title.value else s[i].title,
        date := if Present(req.date) then req.date.value else s[i].date,
        time := if Present(req.time) then req.time.value else s[i].time,
        updatedAt := Some(updatedAt))
      && forall j :: 0 <= j < |s| && j != i ==> r.value[j] == s[j]
  {
    match FindIndex(s, id)
    case None => Err(NotFound)
    case Some(i) =>
      if Present(req.date) && !CalendarDate.IsValid(req.date.value) then Err(InvalidDateFormat)
      else if Present(req.time) && TimeOfDay.Parse(req.time.value, false).None? then Err(InvalidTimeFormat)
      else
        var prior := s[i];
        var updated := Appointment(
          prior.id,
          if Present(req.title) then req.title.value else prior.title,
          if Present(req.date) then req.date.value else prior.date,
          if Present(req.time) then req.time.value else prior.time,
          prior.createdAt,
          Some(updatedAt));
        Ok(s[i := updated])
  }

  /**
   * Deleting by id: every record carrying the id is dropped, and the
   * deletion counts as not found when that drops nothing.
   */
  function Delete(s: seq<Appointment>, id: int): (r: Result<seq<Appointment>, Error>)
    ensures r.Err? <==> !HasId(s, id)
    ensures r.Err? ==> r.error == NotFound
    ensures r.Ok? ==> |r.value| < |s| && forall k :: 0 <= k < |r.value| ==> r.value[k].id != id && r.value[k] in s
    ensures r.Ok? ==> forall k :: 0 <= k < |s| && s[k].id != id ==> s[k] in r.value
  {
    var remaining := RemoveId(s, id);
    if |s| == |remaining| then Err(NotFound) else Ok(remaining)
  }
}

=== FILE: digits.dfy ===
/** Decimal digit strings: the building block of the `YYYY-MM-DD` and `h:mm A` formats. */
module Digits {

  predicate IsDigit(c: char) {
    '0' <= c <= '9'
  }

  function DigitValue(c: char): (v: nat)
    requires IsDigit(c)
    ensures v < 10
  {
    c as int - '0' as int
  }

  function DigitChar(v: nat): (c: char)
    requires v < 10
    ensures IsDigit(c) && DigitValue(c) == v
  {
    ('0' as int + v) as char
  }

  predicate AllDigits(s: string) {
    forall i :: 0 <= i < |s| ==> IsDigit(s[i])
  }

  function Pow10(n: nat): (p: nat)
    ensures p >= 1
  {
    if n == 0 then 1 else 10 * Pow10(n - 1)
  }

  /** The value of a digit string read in base ten, most significant digit first. */
  function Value(s: string): (v: nat)
    requires AllDigits(s)
    ensures v < Pow10(|s|)
  {
    if |s| == 0 then 0 else 10 * Value(s[..|s| - 1]) + DigitValue(s[|s| - 1])
  }

  /** The `width`-digit rendering of `v`, padded with leading zeros. */
  function Pad(v: nat, width: nat): (s: string)
    requires v < Pow10(width)
    ensures |s| == width && AllDigits(s)
    ensures Value(s) == v
  {
    if width == 0 then "" else
      var init := Pad(v / 10, width - 1);
      var s := init + [DigitChar(v % 10)];
      assert s[..|s| - 1] == init;
      s
  }

  /** A digit string is the padded rendering of its own value: reading is injective per width. */
  lemma {:induction false} PadValue(s: string)
    requires AllDigits(s)
    ensures Pad(Value(s), |s|) == s
  {
    if |s| > 0 {
      var init := s[..|s| - 1];
      var last := s[|s| - 1];
      PadValue(init);
      assert Value(s) / 10 == Value(init);
      assert Value(s) % 10 == DigitValue(last);
      assert DigitChar(DigitValue(last)) == last;
      assert s == init + [last];
    }
  }

  /** A two-digit string whose value is at least ten does not start with '0'. */
  lemma NoLeadingZero(s: string)
    requires |s| == 2 && AllDigits(s) && Value(s) >= 10
    ensures s[0] != '0'
  {
    assert s[..1][..0] == [];
    assert Value(s[..1]) == DigitValue(s[0]);
  }

  /** The value of a four-digit string, digit by digit. */
  lemma FourDigitValue(s: string)
    requires |s| == 4 && AllDigits(s)
    ensures Value(s) == 1000 * DigitValue(s[0]) + 100 * DigitValue(s[1]) + 10 * DigitValue(s[2]) + DigitValue(s[3])
  {
    assert s[..3][..2] == s[..2];
    assert s[..2][..1] == s[..1];
    assert s[..1][..0] == [];
    assert Value(s[..1]) == DigitValue(s[0]);
    assert Value(s[..2]) == 10 * DigitValue(s[0]) + DigitValue(s[1]);
    assert Value(s[..3]) == 100 * DigitValue(s[0]) + 10 * DigitValue(s[1]) + DigitValue(s[2]);
  }

  /** Reads a literal digit string of length one or two. */
  lemma DigitsOf(s: string, v: nat)
    requires 1 <= |s| <= 2 && AllDigits(s)
    requires v == (if |s| == 1 then DigitValue(s[0]) else 10 * DigitValue(s[0]) + DigitValue(s[1]))
    ensures Value(s) == v
  {
    assert s[..|s| - 1][..0] == [];
    if |s| == 2 {
      assert s[..1][..0] == [];
    }
  }
}

=== FILE: properties.dfy ===
/**
 * Properties that relate several controller operations, and the concrete
 * cases the booking rules are known by: the boundary times, malformed
 * inputs, and a create / conflict / delete session.
 */
module Properties {
  import opened Wrappers
  import opened Digits
  import opened Store
  import opened Controller
  import TimeOfDay
  import CalendarDate
  import BusinessHours

  // ---------------------------------------------------------------------------
  // Concrete dates and times
  // ---------------------------------------------------------------------------

  /** A date in an ordinary month. */
  lemma CheckupDateIsValid()
    ensures CalendarDate.IsValid("2030-01-10")
  {
    assert "2030-01-10" == CalendarDate.Assemble("2030", "01", "10");
    CalendarDate.ParseAssembled("2030", "01", "10");
    FourDigitValue("2030");
    assert Value("01") == 1 && Value("10") == 10;
  }

  /** February 29th exists in a leap year ... */
  lemma LeapDayIsValid()
    ensures CalendarDate.IsValid("2024-02-29")
  {
    assert "2024-02-29" == CalendarDate.Assemble("2024", "02", "29");
    CalendarDate.ParseAssembled("2024", "02", "29");
    FourDigitValue("2024");
    DigitsOf("02", 2);
    DigitsOf("29", 29);
    assert CalendarDate.IsLeapYear(2024);
  }

  /** ... and not in a common year. */
  lemma NonLeapDayIsInvalid()
    ensures !CalendarDate.IsValid("2023-02-29")
  {
    assert "2023-02-29" == CalendarDate.Assemble("2023", "02", "29");
    CalendarDate.ParseAssembled("2023", "02", "29");
    FourDigitValue("2023");
    assert Value("02") == 2 && Value("29") == 29;
  }

  /** April has thirty days. */
  lemma AprilThirtyFirstIsInvalid()
    ensures !CalendarDate.IsValid("2024-04-31")
  {
    assert "2024-04-31" == CalendarDate.Assemble("2024", "04", "31");
    CalendarDate.ParseAssembled("2024", "04", "31");
    assert Value("04") == 4 && Value("31") == 31;
  }

  /** There is no thirteenth month. */
  lemma MonthThirteenIsInvalid()
    ensures !CalendarDate.IsValid("2024-13-40")
  {
    assert "2024-13-40" == CalendarDate.Assemble("2024", "13", "40");
    CalendarDate.ParseAssembled("2024", "13", "40");
    assert Value("13") == 13;
  }

  /** One minute before opening. */
  lemma SevenFiftyNineAm()
    ensures TimeOfDay.Parse("7:59 AM", false) == Some(479)
  {
    DigitsOf("7", 7);
    DigitsOf("59", 59);
    TimeOfDay.ReadsAs("7:59 AM", "7", "59", "AM", false, 479);
  }

  /** Opening time. */
  lemma EightAm()
    ensures TimeOfDay.Parse("8:00 AM", false) == Some(480)
  {
    DigitsOf("8", 8);
    DigitsOf("00", 0);
    TimeOfDay.ReadsAs("8:00 AM", "8", "00", "AM", false, 480);
  }

  /** A morning slot. */
  lemma NineAm()
    ensures TimeOfDay.Parse("9:00 AM", false) == Some(540)
  {
    DigitsOf("9", 9);
    DigitsOf("00", 0);
    TimeOfDay.ReadsAs("9:00 AM", "9", "00", "AM", false, 540);
  }

  /** Start of the lunch break. */
  lemma NoonPm()
    ensures TimeOfDay.Parse("12:00 PM", false) == Some(720)
  {
    DigitsOf("12", 12);
    DigitsOf("00", 0);
    TimeOfDay.ReadsAs("12:00 PM", "12", "00", "PM", false, 720);
  }

  /** Inside the lunch break. */
  lemma TwelveThirtyPm()
    ensures TimeOfDay.Parse("12:30 PM", false) == Some(750)
  {
    DigitsOf("12", 12);
    DigitsOf("30", 30);
    TimeOfDay.ReadsAs("12:30 PM", "12", "30", "PM", false, 750);
  }

  /** End of the lunch break. */
  lemma TwoPm()
    ensures TimeOfDay.Parse("2:00 PM", false) == Some(840)
  {
    DigitsOf("2", 2);
    DigitsOf("00", 0);
    TimeOfDay.ReadsAs("2:00 PM", "2", "00", "PM", false, 840);
  }

  /** Closing time. */
  lemma SixPm()
    ensures TimeOfDay.Parse("6:00 PM", false) == Some(1080)
  {
    DigitsOf("6", 6);
    DigitsOf("00", 0);
    TimeOfDay.ReadsAs("6:00 PM", "6", "00", "PM", false, 1080);
  }

  /** One minute after closing. */
  lemma SixOhOnePm()
    ensures TimeOfDay.Parse("6:01 PM", false) == Some(1081)
  {
    DigitsOf("6", 6);
    DigitsOf("01", 1);
    TimeOfDay.ReadsAs("6:01 PM", "6", "01", "PM", false, 1081);
  }

  /** A leading zero on the hour is refused by the strict reading. */
  lemma PaddedHourIsRefused()
    ensures TimeOfDay.Parse("08:00 AM", false) == None
  {
    assert "08:00 AM"[..2] == "08";
    assert TimeOfDay.ParseHour("08", false) == None;
  }

  // ---------------------------------------------------------------------------
  // Create
  // ---------------------------------------------------------------------------

  /**
   * For a well-formed request on a free slot that the lead-time rule lets
   * through, create succeeds exactly inside the bookable windows
   * [8:00 AM, 12:00 PM) and (2:00 PM, 6:00 PM]; otherwise it reports
   * business hours outside 8:00 AM-6:00 PM and the lunch break inside
   * 12:00 PM-2:00 PM.
   */
  lemma CreateDecidesByWindows(s: seq<Appointment>, req: Request, now: Clock, id: int, createdAt: string, m: int)
    requires 0 <= now.leadMinute < TimeOfDay.MinutesPerDay
    requires Present(req.title) && Present(req.date) && Present(req.time)
    requires CalendarDate.IsValid(req.date.value) && TimeOfDay.Parse(req.time.value, false) == Some(m)
    requires !(req.date.value == now.today && m < now.leadMinute)
    requires IsTimeSlotAvailable(s, req.date.value, req.time.value)
    ensures var r := Create(s, req, now, id, createdAt);
      && (r.Ok? <==> 480 <= m < 720 || 840 < m <= 1080)
      && (m < 480 || 1080 < m ==> r == Err(OutsideBusinessHours))
      && (720 <= m <= 840 ==> r == Err(DuringLunchBreak))
  {
    CreateReportsFirstBrokenRule(s, req, now, id, createdAt);
    OnlyHoursRulesLeft(s, req, now, m);
    if m < 480 || 1080 < m {
      assert Violates(OutsideBusinessHours, s, req, now);
    } else if 720 <= m <= 840 {
      assert Violates(DuringLunchBreak, s, req, now);
      assert !Violates(OutsideBusinessHours, s, req, now);
    } else {
      assert !Violates(OutsideBusinessHours, s, req, now);
      assert !Violates(DuringLunchBreak, s, req, now);
    }
  }

  /** Under the requirements of `CreateDecidesByWindows`, only the two opening-hours rules can be broken. */
  lemma OnlyHoursRulesLeft(s: seq<Appointment>, req: Request, now: Clock, m: int)
    requires 0 <= now.leadMinute < TimeOfDay.MinutesPerDay
    requires Present(req.title) && Present(req.date) && Present(req.time)
    requires CalendarDate.IsValid(req.date.value) && TimeOfDay.Parse(req.time.value, false) == Some(m)
    requires !(req.date.value == now.today && m < now.leadMinute)
    requires IsTimeSlotAvailable(s, req.date.value, req.time.value)
    ensures forall e :: Violates(e, s, req, now) ==> e == OutsideBusinessHours || e == DuringLunchBreak
  {
    forall e | Violates(e, s, req, now)
      ensures e == OutsideBusinessHours || e == DuringLunchBreak
    {
      match e
      case MissingField =>
      case InvalidDateFormat =>
      case InvalidTimeFormat =>
      case OutsideBusinessHours =>
      case DuringLunchBreak =>
      case InsufficientLeadTime =>
      case SlotTaken =>
      case NotFound =>
    }
  }

  /** A request for the given day and time with a non-empty title. */
  function Booking(title: string, date: string, time: string): Request {
    Request(Some(title), Some(date), Some(time))
  }

  /**
   * Both ends of the business day are bookable on a free slot, unless the
   * date is today's and the time is before the lead-time threshold.
   */
  lemma BusinessHoursEdgesAccepted(s: seq<Appointment>, title: string, date: string, time: string, now: Clock, id: int, createdAt: string)
    requires 0 <= now.leadMinute < TimeOfDay.MinutesPerDay
    requires title != "" && CalendarDate.IsValid(date)
    requires time == "8:00 AM" || time == "6:00 PM"
    requires !(date == now.today && BusinessHours.IsBefore(time, now.leadMinute))
    requires IsTimeSlotAvailable(s, date, time)
    ensures Create(s, Booking(title, date, time), now, id, createdAt).Ok?
  {
    if time == "8:00 AM" { EightAm(); } else { SixPm(); }
    var m := TimeOfDay.Parse(time, false).value;
    TimeOfDay.StrictImpliesLenient(time, m);
    CreateDecidesByWindows(s, Booking(title, date, time), now, id, createdAt, m);
  }

  /** Any minute in the lunch break is refused with the lunch-break error, whatever the day, the clock and the stored bookings. */
  lemma AnyLunchMinuteRejected(s: seq<Appointment>, req: Request, now: Clock, id: int, createdAt: string, m: int)
    requires 0 <= now.leadMinute < TimeOfDay.MinutesPerDay
    requires Present(req.title) && Present(req.date) && Present(req.time)
    requires CalendarDate.IsValid(req.date.value) && TimeOfDay.Parse(req.time.value, false) == Some(m)
    requires 720 <= m <= 840
    ensures Create(s, req, now, id, createdAt) == Err(DuringLunchBreak)
  {
    CreateReportsFirstBrokenRule(s, req, now, id, createdAt);
    assert Violates(DuringLunchBreak, s, req, now);
    assert !Violates(MissingField, s, req, now);
    assert !Violates(InvalidDateFormat, s, req, now);
    assert !Violates(InvalidTimeFormat, s, req, now);
    assert !Violates(OutsideBusinessHours, s, req, now);
  }

  /** Any minute outside 8:00 AM-6:00 PM is refused with the business-hours error, whatever the day, the clock and the stored bookings. */
  lemma AnyOutsideMinuteRejected(s: seq<Appointment>, req: Request, now: Clock, id: int, createdAt: string, m: int)
    requires 0 <= now.leadMinute < TimeOfDay.MinutesPerDay
    requires Present(req.title) && Present(req.date) && Present(req.time)
    requires CalendarDate.IsValid(req.date.value) && TimeOfDay.Parse(req.time.value, false) == Some(m)
    requires m < 480 || 1080 < m
    ensures Create(s, req, now, id, createdAt) == Err(OutsideBusinessHours)
  {
    CreateReportsFirstBrokenRule(s, req, now, id, createdAt);
    assert Violates(OutsideBusinessHours, s, req, now);
    assert !Violates(MissingField, s, req, now);
    assert !Violates(InvalidDateFormat, s, req, now);
    assert !Violates(InvalidTimeFormat, s, req, now);
  }

  /**
   * Both ends of the lunch break are refused with the lunch-break error,
   * whatever the day, the clock and the stored bookings.
   */
  lemma LunchEdgesRejected(s: seq<Appointment>, title: string, date: string, time: string, now: Clock, id: int, createdAt: string)
    requires 0 <= now.leadMinute < TimeOfDay.MinutesPerDay
    requires title != "" && CalendarDate.IsValid(date)
    requires time == "12:00 PM" || time == "2:00 PM"
    ensures Create(s, Booking(title, date, time), now, id, createdAt) == Err(DuringLunchBreak)
  {
    var req := Booking(title, date, time);
    if time == "12:00 PM" { NoonPm(); } else { TwoPm(); }
    CreateReportsFirstBrokenRule(s, req, now, id, createdAt);
    assert Violates(DuringLunchBreak, s, req, now);
    assert !Violates(MissingField, s, req, now);
    assert !Violates(InvalidDateFormat, s, req, now);
    assert !Violates(InvalidTimeFormat, s, req, now);
    assert !Violates(OutsideBusinessHours, s, req, now);
  }

  /**
   * One minute outside the business day is refused with the business-hours
   * error, whatever the day, the clock and the stored bookings.
   */
  lemma JustOutsideHoursRejected(s: seq<Appointment>, title: string, date: string, time: string, now: Clock, id: int, createdAt: string)
    requires 0 <= now.leadMinute < TimeOfDay.MinutesPerDay
    requires title != "" && CalendarDate.IsValid(date)
    requires time == "7:59 AM" || time == "6:01 PM"
    ensures Create(s, Booking(title, date, time), now, id, createdAt) == Err(OutsideBusinessHours)
  {
    var req := Booking(title, date, time);
    if time == "7:59 AM" { SevenFiftyNineAm(); } else { SixOhOnePm(); }
    CreateReportsFirstBrokenRule(s, req, now, id, createdAt);
    assert Violates(OutsideBusinessHours, s, req, now);
    assert !Violates(MissingField, s, req, now);
    assert !Violates(InvalidDateFormat, s, req, now);
    assert !Violates(InvalidTimeFormat, s, req, now);
  }

  /** A malformed date is reported as such by create, for any non-empty title and time. */
  lemma CreateRefusesMonthThirteen(s: seq<Appointment>, title: string, time: string, now: Clock, id: int, createdAt: string)
    requires 0 <= now.leadMinute < TimeOfDay.MinutesPerDay
    requires title != "" && time != ""
    ensures Create(s, Booking(title, "2024-13-40", time), now, id, createdAt) == Err(InvalidDateFormat)
  {
    MonthThirteenIsInvalid();
  }

  /** A time with an hour and minute out of range is reported as malformed by create, whatever the day. */
  lemma CreateRefusesOutOfRangeTime(s: seq<Appointment>, title: string, date: string, now: Clock, id: int, createdAt: string)
    requires 0 <= now.leadMinute < TimeOfDay.MinutesPerDay
    requires title != "" && CalendarDate.IsValid(date)
    ensures Create(s, Booking(title, date, "25:61"), now, id, createdAt) == Err(InvalidTimeFormat)
  {
  }

  /**
   * The lead-time rejection happens only when the date is today's and the
   * time is earlier than now plus two hours (as a time of day); any other
   * date, a past one included, is never refused for lead time.
   */
  lemma LeadTimeOnlyToday(s: seq<Appointment>, req: Request, now: Clock, id: int, createdAt: string)
    requires 0 <= now.leadMinute < TimeOfDay.MinutesPerDay
    requires Create(s, req, now, id, createdAt) == Err(InsufficientLeadTime)
    ensures req.date == Some(now.today)
    ensures var m := TimeOfDay.Parse(req.time.value, false);
      m.Some? && 480 <= m.value <= 1080 && m.value < now.leadMinute
  {
    CreateReportsFirstBrokenRule(s, req, now, id, createdAt);
    assert Violates(InsufficientLeadTime, s, req, now);
    assert !Violates(MissingField, s, req, now);
    assert !Violates(OutsideBusinessHours, s, req, now);
  }

  /**
   * From 10 PM on, with no clock change ahead, now plus two hours falls on
   * the next day, but only its time of day is kept: the threshold is before
   * 2:00 AM and the lead-time rule never fires, whatever the request.
   */
  lemma LeadTimeLapsesAfterTenPm(s: seq<Appointment>, req: Request, now: Clock, id: int, createdAt: string)
    requires SteadyClock(now) && 22 * 60 <= now.minute
    ensures Create(s, req, now, id, createdAt) != Err(InsufficientLeadTime)
  {
    assert now.leadMinute == BusinessHours.LeadThreshold(now.minute) < BusinessHours.LeadMinutes;
    if Create(s, req, now, id, createdAt) == Err(InsufficientLeadTime) {
      LeadTimeOnlyToday(s, req, now, id, createdAt);
      assert false;
    }
  }

  /** At 11 PM, with no clock change ahead, a slot earlier the same day, long past, is still accepted. */
  lemma PastSlotTodayAcceptedLateEvening()
    ensures SteadyClock(Clock("2030-01-10", 23 * 60, 60))
    ensures Create([], Booking("Late", "2030-01-10", "9:00 AM"), Clock("2030-01-10", 23 * 60, 60), 7, "t0").Ok?
  {
    CheckupDateIsValid();
    NineAm();
    CreateDecidesByWindows([], Booking("Late", "2030-01-10", "9:00 AM"), Clock("2030-01-10", 23 * 60, 60), 7, "t0", 540);
  }

  /**
   * On a night when the clocks go back an hour at midnight, two hours after
   * 10:30 PM the clock shows 11:30 PM of the same day: the threshold does not
   * wrap, and a same-day morning slot is refused for lead time.
   */
  lemma LeadTimeHoldsWhenClocksGoBack()
    ensures !SteadyClock(Clock("2030-01-10", 22 * 60 + 30, 23 * 60 + 30))
    ensures Create([], Booking("Late", "2030-01-10", "9:00 AM"), Clock("2030-01-10", 22 * 60 + 30, 23 * 60 + 30), 7, "t0")
      == Err(InsufficientLeadTime)
  {
    assert BusinessHours.LeadThreshold(22 * 60 + 30) == 30;
    CheckupDateIsValid();
    NineAm();
    CreateRefusesTooSoon([], Booking("Late", "2030-01-10", "9:00 AM"), Clock("2030-01-10", 22 * 60 + 30, 23 * 60 + 30), 7, "t0", 540);
  }

  /**
   * A bookable minute on today's date that is earlier than the threshold is
   * refused for lead time, whatever the stored bookings.
   */
  lemma CreateRefusesTooSoon(s: seq<Appointment>, req: Request, now: Clock, id: int, createdAt: string, m: int)
    requires 0 <= now.leadMinute < TimeOfDay.MinutesPerDay
    requires Present(req.title) && Present(req.date) && Present(req.time)
    requires CalendarDate.IsValid(req.date.value) && TimeOfDay.Parse(req.time.value, false) == Some(m)
    requires 480 <= m < 720 || 840 < m <= 1080
    requires req.date.value == now.today && m < now.leadMinute
    ensures Create(s, req, now, id, createdAt) == Err(InsufficientLeadTime)
  {
    CreateReportsFirstBrokenRule(s, req, now, id, createdAt);
    assert Violates(InsufficientLeadTime, s, req, now);
    assert !Violates(MissingField, s, req, now);
    assert !Violates(InvalidDateFormat, s, req, now);
    assert !Violates(InvalidTimeFormat, s, req, now);
    assert !Violates(OutsideBusinessHours, s, req, now);
    assert !Violates(DuringLunchBreak, s, req, now);
  }

  /** After a successful create, the same slot is taken: a second create for it fails, whatever its title. */
  lemma CreateThenSameSlotTaken(s: seq<Appointment>, req: Request, now: Clock, id: int, createdAt: string,
                                title2: string, id2: int, createdAt2: string)
    requires 0 <= now.leadMinute < TimeOfDay.MinutesPerDay
    requires title2 != ""
    ensures Create(s, req, now, id, createdAt).Ok? ==>
      Create(Create(s, req, now, id, createdAt).value, Request(Some(title2), req.date, req.time), now, id2, createdAt2)
        == Err(SlotTaken)
  {
    if Create(s, req, now, id, createdAt).Err? {
      return;
    }
    var s' := Create(s, req, now, id, createdAt).value;
    var req2 := Request(Some(title2), req.date, req.time);
    CreateReportsFirstBrokenRule(s, req, now, id, createdAt);
    CreateReportsFirstBrokenRule(s', req2, now, id2, createdAt2);
    assert !Violates(MissingField, s, req, now);
    assert !Violates(InvalidDateFormat, s, req, now);
    assert !Violates(InvalidTimeFormat, s, req, now);
    assert !Violates(OutsideBusinessHours, s, req, now);
    assert !Violates(DuringLunchBreak, s, req, now);
    assert !Violates(InsufficientLeadTime, s, req, now);
    assert Occupies(s'[|s|], req.date.value, req.time.value);
    assert Violates(SlotTaken, s', req2, now);
  }

  /**
   * Lead time is checked before the slot: a checkup booked at 6:00 AM for
   * 9:00 AM the same day, then asked for again at 8:00 AM, is refused for
   * lead time rather than as a taken slot.
   */
  lemma LaterRetryRefusedForLeadTime()
    ensures var checkup := Appointment(1, "Checkup", "2030-01-10", "9:00 AM", "t0", None);
      && Create([], Booking("Checkup", "2030-01-10", "9:00 AM"), Clock("2030-01-10", 6 * 60, 8 * 60), 1, "t0")
           == Ok([checkup])
      && Create([checkup], Booking("Follow-up", "2030-01-10", "9:00 AM"), Clock("2030-01-10", 8 * 60, 10 * 60), 2, "t1")
           == Err(InsufficientLeadTime)
  {
    var checkup := Appointment(1, "Checkup", "2030-01-10", "9:00 AM", "t0", None);
    CheckupDateIsValid();
    NineAm();
    CreateDecidesByWindows([], Booking("Checkup", "2030-01-10", "9:00 AM"), Clock("2030-01-10", 6 * 60, 8 * 60), 1, "t0", 540);
    CreateRefusesTooSoon([checkup], Booking("Follow-up", "2030-01-10", "9:00 AM"), Clock("2030-01-10", 8 * 60, 10 * 60), 2, "t1", 540);
  }

  /** Create never puts two records on one slot. */
  lemma CreatePreservesUniqueSlots(s: seq<Appointment>, req: Request, now: Clock, id: int, createdAt: string)
    requires 0 <= now.leadMinute < TimeOfDay.MinutesPerDay
    requires UniqueSlots(s) && Create(s, req, now, id, createdAt).Ok?
    ensures UniqueSlots(Create(s, req, now, id, createdAt).value)
  {
    var r := Create(s, req, now, id, createdAt).value;
    forall i, j | 0 <= i < j < |r|
      ensures !Occupies(r[j], r[i].date, r[i].time)
    {
      assert r[i] == s[i];
      if j < |s| {
        assert r[j] == s[j];
      }
    }
  }

  /** Looking up a fresh id after creating with it finds the new record, at the end. */
  lemma CreateThenFind(s: seq<Appointment>, req: Request, now: Clock, id: int, createdAt: string)
    requires 0 <= now.leadMinute < TimeOfDay.MinutesPerDay
    requires Create(s, req, now, id, createdAt).Ok? && !HasId(s, id)
    ensures var r := Create(s, req, now, id, createdAt).value;
      && FindIndex(r, id) == Some(|s|)
      && r[|s|].title == req.title.value && r[|s|].date == req.date.value && r[|s|].time == req.time.value
  {
    var r := Create(s, req, now, id, createdAt).value;
    assert IsFirstWithId(r, id, |s|) by {
      forall j | 0 <= j < |s|
        ensures r[j].id != id
      {
        assert r[j] == s[j];
      }
    }
    FirstWithIdIsUnique(r, id, FindIndex(r, id).value, |s|);
  }

  /** At most one position is the first carrying a given id. */
  lemma FirstWithIdIsUnique(s: seq<Appointment>, id: int, i: int, j: int)
    requires IsFirstWithId(s, id, i) && IsFirstWithId(s, id, j)
    ensures i == j
  {
  }

  // ---------------------------------------------------------------------------
  // Update
  // ---------------------------------------------------------------------------

  /** After an update, looking the id up finds the same position, now holding the merged fields. */
  lemma UpdateThenFind(s: seq<Appointment>, id: int, req: Request, updatedAt: string)
    requires Update(s, id, req, updatedAt).Ok?
    ensures var r := Update(s, id, req, updatedAt).value;
      var i := FindIndex(s, id);
      && i.Some? && FindIndex(r, id) == i
      && r[i.value].id == id && r[i.value].createdAt == s[i.value].createdAt
      && r[i.value].title == (if Present(req.title) then req.title.value else s[i.value].title)
      && r[i.value].date == (if Present(req.date) then req.date.value else s[i.value].date)
      && r[i.value].time == (if Present(req.time) then req.time.value else s[i.value].time)
  {
    var r := Update(s, id, req, updatedAt).value;
    var i := FindIndex(s, id).value;
    assert IsFirstWithId(r, id, i) by {
      forall j | 0 <= j < i
        ensures r[j].id != id
      {
        assert r[j] == s[j];
      }
    }
    FirstWithIdIsUnique(r, id, FindIndex(r, id).value, i);
  }

  /** Changing only the title keeps the record on its own slot and never meets a conflict. */
  lemma UpdateTitleOnlyKeepsSlot(s: seq<Appointment>, id: int, title: string, updatedAt: string)
    requires HasId(s, id)
    ensures var r := Update(s, id, Request(Some(title), None, None), updatedAt);
      var i := FindIndex(s, id).value;
      && r.Ok? && |r.value| == |s|
      && r.value[i].date == s[i].date && r.value[i].time == s[i].time
  {
  }

  /** Update checks formats only: it moves a record into the lunch break. */
  lemma UpdateSkipsBookingRules()
    ensures var a := Appointment(1, "Checkup", "2030-01-10", "9:00 AM", "t0", None);
      Update([a], 1, Request(None, None, Some("12:30 PM")), "t1")
        == Ok([a.(time := "12:30 PM", updatedAt := Some("t1"))])
  {
    TwelveThirtyPm();
    var a := Appointment(1, "Checkup", "2030-01-10", "9:00 AM", "t0", None);
    assert FindIndex([a], 1) == Some(0);
    assert [a][0 := a.(time := "12:30 PM", updatedAt := Some("t1"))] == [a.(time := "12:30 PM", updatedAt := Some("t1"))];
  }

  /**
   * Update does not look for conflicts: it can move a record onto a slot
   * another record holds, so slot uniqueness is not an invariant of update.
   */
  lemma UpdateMayDoubleBook()
    ensures var a := Appointment(1, "Checkup", "2030-01-10", "9:00 AM", "t0", None);
      var b := Appointment(2, "Review", "2030-01-10", "10:00 AM", "t0", None);
      var r := Update([a, b], 2, Request(None, None, Some("9:00 AM")), "t1");
      && UniqueSlots([a, b])
      && r.Ok? && !UniqueSlots(r.value)
  {
    NineAm();
    var a := Appointment(1, "Checkup", "2030-01-10", "9:00 AM", "t0", None);
    var b := Appointment(2, "Review", "2030-01-10", "10:00 AM", "t0", None);
    var r := Update([a, b], 2, Request(None, None, Some("9:00 AM")), "t1");
    assert FindIndex([a, b], 2) == Some(1);
    assert r.value[1].time == "9:00 AM";
    assert Occupies(r.value[1], r.value[0].date, r.value[0].time);
  }

  // ---------------------------------------------------------------------------
  // Delete
  // ---------------------------------------------------------------------------

  /** After a delete, the id is gone: looking it up or deleting it again finds nothing. */
  lemma DeleteThenNotFound(s: seq<Appointment>, id: int)
    requires Delete(s, id).Ok?
    ensures FindIndex(Delete(s, id).value, id) == None
    ensures Delete(Delete(s, id).value, id) == Err(NotFound)
  {
  }

  /** Deleting from a concatenation deletes from each part: relative order is kept. */
  lemma {:induction false} RemoveIdDistributes(a: seq<Appointment>, b: seq<Appointment>, id: int)
    ensures RemoveId(a + b, id) == RemoveId(a, id) + RemoveId(b, id)
  {
    if |a| == 0 {
      assert a + b == b;
    } else {
      assert (a + b)[0] == a[0];
      assert (a + b)[1..] == a[1..] + b;
      RemoveIdDistributes(a[1..], b, id);
    }
  }

  /** Deleting an id no record carries changes nothing. */
  lemma {:induction false} RemoveIdWithoutId(s: seq<Appointment>, id: int)
    requires !HasId(s, id)
    ensures RemoveId(s, id) == s
  {
    if |s| > 0 {
      RemoveIdWithoutId(s[1..], id);
      assert s == [s[0]] + s[1..];
    }
  }

  /** Dropping the first record keeps slot uniqueness. */
  lemma UniqueSlotsTail(s: seq<Appointment>)
    requires |s| > 0 && UniqueSlots(s)
    ensures UniqueSlots(s[1..])
  {
    var tail := s[1..];
    forall i, j | 0 <= i < j < |tail|
      ensures !Occupies(tail[j], tail[i].date, tail[i].time)
    {
      assert tail[i] == s[i + 1] && tail[j] == s[j + 1];
    }
  }

  /** A record put in front of unique records keeps them unique when none of them is on its slot. */
  lemma UniqueSlotsCons(x: Appointment, rest: seq<Appointment>)
    requires UniqueSlots(rest)
    requires forall k :: 0 <= k < |rest| ==> !Occupies(rest[k], x.date, x.time)
    ensures UniqueSlots([x] + rest)
  {
    var r := [x] + rest;
    forall i, j | 0 <= i < j < |r|
      ensures !Occupies(r[j], r[i].date, r[i].time)
    {
      assert r[j] == rest[j - 1];
      if i > 0 {
        assert r[i] == rest[i - 1];
      }
    }
  }

  /** Deleting keeps slot uniqueness. */
  lemma {:induction false} RemoveIdPreservesUniqueSlots(s: seq<Appointment>, id: int)
    requires UniqueSlots(s)
    ensures UniqueSlots(RemoveId(s, id))
  {
    if |s| > 0 {
      var tail := s[1..];
      UniqueSlotsTail(s);
      RemoveIdPreservesUniqueSlots(tail, id);
      var rest := RemoveId(tail, id);
      if s[0].id != id {
        forall k | 0 <= k < |rest|
          ensures !Occupies(rest[k], s[0].date, s[0].time)
        {
          var j :| 0 <= j < |tail| && tail[j] == rest[k];
          assert s[j + 1] == rest[k];
        }
        UniqueSlotsCons(s[0], rest);
      }
    }
  }

  /** Delete never puts two records on one slot. */
  lemma DeletePreservesUniqueSlots(s: seq<Appointment>, id: int)
    requires UniqueSlots(s) && Delete(s, id).Ok?
    ensures UniqueSlots(Delete(s, id).value)
  {
    RemoveIdPreservesUniqueSlots(s, id);
  }

  // ---------------------------------------------------------------------------
  // A session
  // ---------------------------------------------------------------------------

  /**
   * Book a checkup on a free day, fail to book the same slot under another
   * title, delete the checkup by id, and find the store empty again.
   */
  lemma CheckupSession()
    ensures var now := Clock("2026-10-09", 10 * 60, 12 * 60);
      var checkup := Appointment(1, "Checkup", "2030-01-10", "9:00 AM", "t0", None);
      && Create([], Booking("Checkup", "2030-01-10", "9:00 AM"), now, 1, "t0") == Ok([checkup])
      && Create([checkup], Booking("Follow-up", "2030-01-10", "9:00 AM"), now, 2, "t1") == Err(SlotTaken)
      && Delete([checkup], 1) == Ok([])
      && FindIndex([], 1) == None
  {
    var now := Clock("2026-10-09", 10 * 60, 12 * 60);
    var checkup := Appointment(1, "Checkup", "2030-01-10", "9:00 AM", "t0", None);
    CheckupDateIsValid();
    NineAm();
    CreateDecidesByWindows([], Booking("Checkup", "2030-01-10", "9:00 AM"), now, 1, "t0", 540);
    CreateThenSameSlotTaken([], Booking("Checkup", "2030-01-10", "9:00 AM"), now, 1, "t0", "Follow-up", 2, "t1");
    assert RemoveId([checkup], 1) == [];
  }
}

=== FILE: store.dfy ===
/**
 * The stored appointments: the array the controller loads from its JSON file,
 * modelled as an immutable sequence in stored order, with the lookups the
 * controller performs on it.
 */
module Store {
  import opened Wrappers

  /** One stored appointment; `updatedAt` is absent until the first update. */
  datatype Appointment = Appointment(
    id: int,
    title: string,
    date: string,
    time: string,
    createdAt: string,
    updatedAt: Option<string>)

  /** The record occupies the slot `(date, time)`, compared as exact strings. */
  predicate Occupies(a: Appointment, date: string, time: string) {
    a.date == date && a.time == time
  }

  /** The slot is free when no stored record occupies it. */
  function IsTimeSlotAvailable(s: seq<Appointment>, date: string, time: string): (b: bool)
    ensures b <==> forall i :: 0 <= i < |s| ==> !Occupies(s[i], date, time)
  {
    if |s| == 0 then true
    else !Occupies(s[0], date, time) && IsTimeSlotAvailable(s[1..], date, time)
  }

  /** Some stored record carries the id. */
  predicate HasId(s: seq<Appointment>, id: int) {
    exists i :: 0 <= i < |s| && s[i].id == id
  }

  /** `i` is the position of the first record carrying the id. */
  predicate IsFirstWithId(s: seq<Appointment>, id: int, i: int) {
    && 0 <= i < |s|
    && s[i].id == id
    && forall j :: 0 <= j < i ==> s[j].id != id
  }

  /** The position of the first record carrying the id, or None when there is none. */
  function FindIndex(s: seq<Appointment>, id: int): (r: Option<nat>)
    ensures r.Some? ==> IsFirstWithId(s, id, r.value)
    ensures r.None? <==> !HasId(s, id)
  {
    if |s| == 0 then None
    else if s[0].id == id then Some(0)
    else match FindIndex(s[1..], id)
      case None => None
      case Some(k) => Some(k + 1)
  }

  /** The records that do not carry the id, in their stored order. */
  function RemoveId(s: seq<Appointment>, id: int): (r: seq<Appointment>)
    ensures |r| <= |s|
    ensures forall k :: 0 <= k < |r| ==> r[k].id != id && r[k] in s
    ensures forall k :: 0 <= k < |s| && s[k].id != id ==> s[k] in r
    ensures |r| == |s| <==> !HasId(s, id)
  {
    if |s| == 0 then []
    else
      var rest := RemoveId(s[1..], id);
      assert HasId(s, id) <==> s[0].id == id || HasId(s[1..], id) by {
        if HasId(s[1..], id) {
          var i :| 0 <= i < |s[1..]| && s[1..][i].id == id;
          assert s[i + 1].id == id;
        }
      }
      assert forall k :: 1 <= k < |s| ==> s[k] == s[1..][k - 1];
      if s[0].id == id then rest else [s[0]] + rest
  }

  /** Deleting keeps every other record as many times as it was stored. */
  lemma {:induction false} RemoveIdKeepsOthers(s: seq<Appointment>, id: int, a: Appointment)
    requires a.id != id
    ensures multiset(RemoveId(s, id))[a] == multiset(s)[a]
  {
    if |s| > 0 {
      RemoveIdKeepsOthers(s[1..], id, a);
      assert s == [s[0]] + s[1..];
    }
  }

  /** No two records occupy the same slot. */
  predicate UniqueSlots(s: seq<Appointment>) {
    forall i, j :: 0 <= i < j < |s| ==> !Occupies(s[j], s[i].date, s[i].time)
  }
}

=== FILE: time_of_day.dfy ===
/**
 * Times of day in the 12-hour `h:mm A` format ("9:00 AM", "12:45 PM"),
 * read as the number of minutes since midnight: 12 AM is 0, 12 PM is 720.
 *
 * The grammar: an hour 1-12, ':', two minute digits 00-59, one space, then
 * "AM" or "PM" in capitals. The strict reading (used to validate input)
 * refuses a leading zero on the hour; the lenient reading (used on the
 * controller's own constants such as "08:00 AM") accepts one.
 */
module TimeOfDay {
  import opened Wrappers
  import opened Digits

  const MinutesPerHour: int := 60
  const MinutesPerDay: int := 1440
  const Noon: int := 720

  /** The hour field: one digit, or two digits with no leading zero unless lenient; value 1-12. */
  function ParseHour(h: string, lenient: bool): (r: Option<nat>)
    ensures r.Some? ==> 1 <= r.value <= 12 && AllDigits(h) && r.value == Value(h)
    ensures r.Some? && !lenient ==> |h| == (if r.value < 10 then 1 else 2)
  {
    if AllDigits(h) && (|h| == 1 || (|h| == 2 && (lenient || h[0] != '0'))) && 1 <= Value(h) <= 12
    then
      if |h| == 2 && !lenient then
        assert Value(h[..1]) == DigitValue(h[0]) by { assert h[..1][..0] == []; }
        Some(Value(h))
      else Some(Value(h))
    else None
  }

  /** The minute of the day `s` denotes, or None when `s` is not in `h:mm A` form. */
  function Parse(s: string, lenient: bool): (r: Option<int>)
    ensures r.Some? ==> 0 <= r.value < MinutesPerDay
  {
    if |s| < 7 || |s| > 8 then None
    else
      var n := |s| - 6;
      ReadFields(s[..n], s[n], s[n + 1 .. n + 3], s[n + 3], s[n + 4 ..], lenient)
  }

  /** The fields of an `h:mm A` string, already cut apart, read as a minute of the day. */
  function ReadFields(hour: string, colon: char, minute: string, space: char, meridiem: string, lenient: bool)
    : (r: Option<int>)
    ensures r.Some? ==> 0 <= r.value < MinutesPerDay
  {
    var h := ParseHour(hour, lenient);
    if h.None? || colon != ':' || !AllDigits(minute) || Value(minute) >= MinutesPerHour || space != ' ' then None
    else if meridiem == "AM" then Some(h.value % 12 * MinutesPerHour + Value(minute))
    else if meridiem == "PM" then Some(Noon + h.value % 12 * MinutesPerHour + Value(minute))
    else None
  }

  /** The hour as shown on a 12-hour clock: 0 and 12 both show as 12. */
  function ClockHour(m: int): (h: nat)
    requires 0 <= m < MinutesPerDay
    ensures 1 <= h <= 12
    ensures h % 12 == (m / MinutesPerHour) % 12
  {
    var h24 := m / MinutesPerHour;
    if h24 % 12 == 0 then 12 else h24 % 12
  }

  /** The text `hour:minute meridiem` put together from its three fields. */
  function Assemble(hour: string, minute: string, meridiem: string): string {
    hour + ":" + minute + " " + meridiem
  }

  /** Reading an assembled string reads exactly the fields it was built from. */
  lemma ParseAssembled(hour: string, minute: string, meridiem: string, lenient: bool)
    requires 1 <= |hour| <= 2 && |minute| == 2 && |meridiem| == 2
    ensures Parse(Assemble(hour, minute, meridiem), lenient) == ReadFields(hour, ':', minute, ' ', meridiem, lenient)
  {
    var s := Assemble(hour, minute, meridiem);
    var n := |hour|;
    assert s == hour + [':'] + minute + [' '] + meridiem;
    assert s[..n] == hour;
    assert s[n + 1 .. n + 3] == minute;
    assert s[n + 4 ..] == meridiem;
  }

  /** Every string the parser reads is assembled from the fields it read. */
  lemma ParsedIsAssembled(s: string, lenient: bool)
    requires Parse(s, lenient).Some?
    ensures var n := |s| - 6;
      s == Assemble(s[..n], s[n + 1 .. n + 3], s[n + 4 ..])
  {
    var n := |s| - 6;
    assert s == s[..n] + [s[n]] + s[n + 1 .. n + 3] + [s[n + 3]] + s[n + 4 ..];
  }

  /** The `h:mm A` text of minute `m`, hour without a leading zero; the strict reading takes it back to `m`. */
  function Format(m: int): (s: string)
    requires 0 <= m < MinutesPerDay
    ensures Parse(s, false) == Some(m)
  {
    var h := ClockHour(m);
    var hour := Pad(h, if h < 10 then 1 else 2);
    var minute := Pad(m % MinutesPerHour, 2);
    var meridiem := if m < Noon then "AM" else "PM";
    assert ParseHour(hour, false) == Some(h) by {
      if |hour| == 2 { NoLeadingZero(hour); }
    }
    ParseAssembled(hour, minute, meridiem, false);
    ClockSplit(m);
    Assemble(hour, minute, meridiem)
  }

  /** A minute of the day recomposed from the fields `Format` shows. */
  lemma ClockSplit(m: int)
    requires 0 <= m < MinutesPerDay
    ensures m == (if m < Noon then 0 else Noon) + ClockHour(m) % 12 * MinutesPerHour + m % MinutesPerHour
  {
    var h24 := m / MinutesPerHour;
    assert m == h24 * MinutesPerHour + m % MinutesPerHour;
    if m >= Noon {
      assert 12 <= h24 < 24;
      assert h24 % 12 == h24 - 12;
    }
  }

  /** The 12-hour fields shown for a minute built from those fields. */
  lemma ClockFields(m: int, h: nat, mm: nat, meridiem: string)
    requires 1 <= h <= 12 && mm < MinutesPerHour
    requires meridiem == "AM" || meridiem == "PM"
    requires m == (if meridiem == "PM" then Noon else 0) + h % 12 * MinutesPerHour + mm
    ensures 0 <= m < MinutesPerDay
    ensures ClockHour(m) == h && m % MinutesPerHour == mm
    ensures meridiem == (if m < Noon then "AM" else "PM")
  {
  }

  /**
   * The strict reading accepts only the canonical text: any string it reads
   * as minute `m` is exactly `Format(m)`. With `Format`'s own contract this
   * makes strict parsing a bijection between valid strings and 0..1439.
   */
  lemma ParseIsCanonical(s: string, m: int)
    requires Parse(s, false) == Some(m)
    ensures Format(m) == s
  {
    var n := |s| - 6;
    var hourText, minuteText, meridiem := s[..n], s[n + 1 .. n + 3], s[n + 4 ..];
    ParsedIsAssembled(s, false);
    var h, mm := FieldsRead(hourText, s[n], minuteText, s[n + 3], meridiem, false, m);
    ClockFields(m, h, mm, meridiem);
    assert Pad(h, |hourText|) == hourText by { PadValue(hourText); }
    assert Pad(mm, 2) == minuteText by { PadValue(minuteText); }
    FormatFields(m);
  }

  /** What a successful reading of the fields says about them. */
  lemma FieldsRead(hour: string, colon: char, minute: string, space: char, meridiem: string, lenient: bool, m: int)
    returns (h: nat, mm: nat)
    requires ReadFields(hour, colon, minute, space, meridiem, lenient) == Some(m)
    ensures ParseHour(hour, lenient) == Some(h) && 1 <= h <= 12 && AllDigits(hour) && Value(hour) == h
    ensures !lenient ==> |hour| == (if h < 10 then 1 else 2)
    ensures AllDigits(minute) && Value(minute) == mm < MinutesPerHour
    ensures meridiem == "AM" || meridiem == "PM"
    ensures m == (if meridiem == "PM" then Noon else 0) + h % 12 * MinutesPerHour + mm
  {
    h := ParseHour(hour, lenient).value;
    mm := Value(minute);
  }

  /** `Format` spelled out field by field. */
  lemma FormatFields(m: int)
    requires 0 <= m < MinutesPerDay
    ensures var h := ClockHour(m);
      Format(m) == Assemble(Pad(h, if h < 10 then 1 else 2), Pad(m % MinutesPerHour, 2), if m < Noon then "AM" else "PM")
  {
  }

  /** Whatever the strict reading accepts, the lenient reading accepts with the same minute. */
  lemma StrictImpliesLenient(s: string, m: int)
    requires Parse(s, false) == Some(m)
    ensures Parse(s, true) == Some(m)
  {
  }

  /** Reads the literal `s`, written out as its fields, as minute `m`. */
  lemma ReadsAs(s: string, hour: string, minute: string, meridiem: string, lenient: bool, m: int)
    requires 1 <= |hour| <= 2 && |minute| == 2 && |meridiem| == 2
    requires s == Assemble(hour, minute, meridiem)
    requires ReadFields(hour, ':', minute, ' ', meridiem, lenient) == Some(m)
    ensures Parse(s, lenient) == Some(m)
  {
    ParseAssembled(hour, minute, meridiem, lenient);
  }

  /** Opening time of the business day, as the controller writes it. */
  lemma OpeningTimeIs480()
    ensures Parse("08:00 AM", true) == Some(480)
  {
    DigitsOf("08", 8);
    DigitsOf("00", 0);
    ReadsAs("08:00 AM", "08", "00", "AM", true, 480);
  }

  /** Closing time of the business day, as the controller writes it. */
  lemma ClosingTimeIs1080()
    ensures Parse("06:00 PM", true) == Some(1080)
  {
    DigitsOf("06", 6);
    DigitsOf("00", 0);
    ReadsAs("06:00 PM", "06", "00", "PM", true, 1080);
  }

  /** Start of the lunch break, as the controller writes it. */
  lemma LunchStartIs720()
    ensures Parse("12:00 PM", true) == Some(720)
  {
    DigitsOf("12", 12);
    DigitsOf("00", 0);
    ReadsAs("12:00 PM", "12", "00", "PM", true, 720);
  }

  /** End of the lunch break, as the controller writes it. */
  lemma LunchEndIs840()
    ensures Parse("02:00 PM", true) == Some(840)
  {
    DigitsOf("02", 2);
    DigitsOf("00", 0);
    ReadsAs("02:00 PM", "02", "00", "PM", true, 840);
  }
}

=== FILE: wrappers.dfy ===
/** Option and result types shared by the appointment model. */
module Wrappers {

  /** A value that may be missing: an absent request field, an unparsable string. */
  datatype Option<+T> = None | Some(value: T)

  /** Either a value or the reason it could not be produced. */
  datatype Result<+T, +E> = Ok(value: T) | Err(error: E)
}
